=== FILE: README.md ===
# ingestion-callback: the per-message decision logic, in Dafny

The service reads storage-event notifications from a queue. For each one it
may fetch the stored ingest document, decode it, and POST to the
`callback_url` found in the document's topology configuration. It then
deletes (acknowledges) the queue message or leaves it for redelivery. The
repository holds two revisions of this consumer, and both are modelled
here, each from its own source file:

- **`SqsConsumer`** (`internal/sqsconsumer/sqsconsumer.go`) covers
  `ProcessMessage` and the loop body of `Consume`. Every failure other
  than an empty `Records` (which panics) is returned as an error. The loop
  deletes a message only when processing returned nil. It moves on after an
  error, and a panic ends the batch.
- **`MessageConsumer`** (`internal/message/consumer.go`) covers
  `processMessages`, the revision that `cmd/server_cmd.go` starts. It
  ignores JSON errors. It deletes every message that is not a create event.
  It fetches even when the key is empty, and it ignores the callback's
  result. A failed fetch or decode abandons the rest of the batch.
- **`Callback`** (`internal/callback/callback.go`) covers the executor. A
  POST succeeds only when the response status is 200.

Every outside service is an outcome value:

- `Environment.World` holds, per message:
  - the object-store read: `GetObject` fails, or it returns a body stream
    made of chunks that ends at EOF or with an error;
  - the callback's transport outcome;
  - whether the queue accepts the delete.
- `Environment.Codecs` holds the deterministic library behaviour as total
  functions:
  - `json.Unmarshal` of the body, which on failure still yields whatever it
    decoded;
  - `proto.Unmarshal` of the document, which yields a document or nothing;
  - `doc.String()`;
  - the error `http.NewRequestWithContext` reports for a URI.

Each per-message function returns the calls it made, as `Effect`s: a
`Read(key)` of the store, or an `Invoke(url, payload)` of the callback. The
batch functions return one `Report` per message handled. A report holds that
message's calls, whether a delete was issued, and whether the delete
succeeded.

`Pipeline` is a reference definition that stands apart from both consumers.
Its `ChainSucceeded` says when a message deserves acknowledgement: the
notification is well formed, and if it announces a new object with a key,
the object is read and decoded, and any callback it names is delivered.
Of the messages a batch reaches before any panic, the newer consumer
acknowledges exactly these. The older consumer
does not. `Variants` states the main places where the two consumers differ,
message by message (non-create events, keyless creates, unparsable bodies,
callback outcomes) and batch by batch (a failed fetch or decode, whole
batches), and where they agree.

Where the design description and the code disagree, the model follows the
code:

- The newer consumer posts the stored bytes as captured by the tee buffer,
  not the document's textual rendering. Only the older consumer posts the
  rendering.
- Both revisions acknowledge notifications that are filtered out.
- The older consumer stops the batch on a fetch or decode failure. It does
  not go on to the next message.
- An empty `Records` array panics in both revisions. This happens, for
  example, on a well-formed body `{}` in the newer consumer. In the older
  one it also happens on any body that is not valid JSON, because
  `json.Unmarshal` then leaves the zero value.
- The callback request carries no `Content-Type: application/json` header.
  `internal/callback/callback.go:25-30` builds the request without setting
  any header.

The repository snapshot is not self-consistent in a few places:

- `internal/message/consumer.go:171` calls `Execute` with two arguments,
  but `internal/callback/callback.go:24` takes three (`ctx`, `uri`, `body`).
- `internal/message/consumer_test.go:103` and `:131` use a `ReceiverDeleter`
  field and a `ProcessMessage` method. That package has neither.
- `cmd/server_cmd.go:50-53` passes a `Logger` field to `callback.Config`,
  which has no such field.

For the older consumer, the model follows the evident intent: the callback
is invoked with the URL and the rendering, and its result is discarded.

## Model

| member | source | states |
|---|---|---|
| Streams.ReadAll | internal/message/consumer.go:156 | draining the store's body yields every delivered byte, in order, and reports the stream's error when it did not end at EOF |
| Streams.TeeDrain | internal/sqsconsumer/sqsconsumer.go:164-166 | chunk by chunk, the reader and the tee buffer each receive exactly the concatenation of the chunks read so far |
| Streams.TeeReadAll | internal/sqsconsumer/sqsconsumer.go:163-166 | reading through the tee gives exactly what a plain `io.ReadAll` gives, and afterwards the buffer holds exactly the bytes that were read |
| Documents.CallbackUrl | internal/sqsconsumer/sqsconsumer.go:179-180 | a callback target exists exactly when the document has a topology whose configuration holds `callback_url`, and it is that entry's value; the lookup goes through the helper `Documents.Configuration`, the nil-safe `GetConfiguration`, which yields an empty map when the topology is missing |
| Callback.NewCallbackExecutor | internal/callback/callback.go:42-48 | the executor's timeout is the configured `Timeout` |
| Callback.Execute | internal/callback/callback.go:24-40 | a request goes out exactly when it can be built, as a POST of the given body to the given URI; the call succeeds exactly when it was sent and the status is 200; a build failure, a transport error and a non-200 status each give their own error |
| Callback.ErrorTextsIdentifyFailure | internal/callback/callback.go:25-37 | the error texts, built by the helper `Callback.ErrorText` as at lines 27, 32 and 36, tell the failures apart: "failed to create http request" prefixes exactly the build failures, "could not execute callback" prefixes exactly the transport failures, and the non-200 text is fixed |
| Callback.SentUnderConfiguredTimeout | internal/callback/callback.go:42-48 | every request an executor built from a configuration sends runs under that configuration's timeout |
| Pipeline.ObjectToFetch | internal/sqsconsumer/sqsconsumer.go:149 | a key is designated for fetching only for a parsed notification, and it is never empty |
| SqsConsumer.FetchAndDispatch | internal/sqsconsumer/sqsconsumer.go:150-186 | the store is read at the key; a failed `GetObject` or body stream is returned as that error, with its own cause; a decode failure is returned as a decode error and nothing is dispatched; a dispatch happens exactly when the decoded document names a target, and it posts the stored bytes byte for byte; a callback error is the returned error; nil exactly when the document decodes and any callback is delivered |
| SqsConsumer.ProcessMessage | internal/sqsconsumer/sqsconsumer.go:137-189 | an unparsable body is an error and causes no calls; an empty `Records` panics; the store is read exactly for an `ObjectCreated:Put` event with a non-empty key, at that key; a dispatch happens exactly when the fetched document names a target, with the stored bytes as payload; once the fetch has started, a failed `GetObject`, a failed body stream, a failed decode and a failed callback are each returned as their own error, with the cause the source returns; nil is returned exactly when the whole chain succeeded (`Pipeline.ChainSucceeded`) |
| SqsConsumer.Settle | internal/sqsconsumer/sqsconsumer.go:121-130 | a message is deleted exactly when its processing returned nil, and the delete succeeds exactly when the queue accepts it |
| SqsConsumer.ConsumeBatch | internal/sqsconsumer/sqsconsumer.go:120-131 | messages are handled in order, each with the calls its processing made; errors never end the batch; the batch ends at the first message whose processing panics, and nothing after it is handled or deleted; each message is deleted exactly when processing returned nil, that is, exactly when its chain succeeded |
| SqsConsumerProperties.NeverFetchesEmptyKey | internal/sqsconsumer/sqsconsumer.go:149-156 | no storage read is ever made with an empty key |
| SqsConsumerProperties.DeliveredCallbackIsAcknowledged | internal/sqsconsumer/sqsconsumer_test.go:111-165 | a put notification for `test-key`, whose stored document names a callback that answers 200, leads to one read and one POST of the stored bytes; processing returns nil, and a delete is issued that succeeds exactly when the queue accepts it |
| MessageConsumer.HandleMessage | internal/message/consumer.go:131-173 | an empty `Records` (including after an ignored JSON error) panics; the store is read for every create event at its key, even an empty one, and for nothing else; a dispatch happens exactly when the document names a target, and it posts the document's rendering; only a failed read or decode aborts, and the callback's outcome never matters |
| MessageConsumer.Loop | internal/message/consumer.go:131-175 | the loop goes on after a delete, returns right after an abort (leaving that message undeleted), and stops at a panic; every earlier handled message was deleted |
| MessageConsumer.ProcessMessages | internal/message/consumer.go:130-176 | messages are handled in slice order with their loop body's calls; each handled message is deleted unless it aborted, and only the last handled one can abort; a panic or an abort leaves the rest of the batch unhandled |
| Variants.OtherEventsAreDeletedByBoth | internal/message/consumer.go:137-139 | a well-formed non-create notification makes no call in either consumer, and both delete it |
| Variants.KeylessCreateIsFetchedOnlyByOlder | internal/message/consumer.go:140-148 | a create event with an empty key: the newer consumer makes no call and deletes it; the older one reads the store at the empty key and deletes the message only if read and decode succeed |
| Variants.ParseErrorsHandledDifferently | internal/message/consumer.go:135-137 | an unparsable body is an error without calls in the newer consumer; the older one proceeds on what was decoded, panics when that is the zero notification, still fetches a partly decoded create event, and deletes a partly decoded event of another kind without a call |
| Variants.CallbackOutcomeMattersOnlyToNewer | internal/message/consumer.go:168-174 | with a callback target, both consumers post to it (stored bytes vs. rendering); the newer one acknowledges exactly when the callback is delivered, the older one always does, so it acknowledges messages whose chain failed |
| Variants.FetchFailureEndsTheOlderBatch | internal/message/consumer.go:148-165 | when the `GetObject` call, the body stream or the decode fails for a create event at message k, and every earlier message reached the delete, the older consumer ends the batch after message k, undeleted |
| Variants.NewerHandlesWholeBatch | internal/sqsconsumer/sqsconsumer.go:120-131 | the newer consumer handles every message of a batch in which no well-formed notification has an empty `Records`, whatever fails, unparsable bodies included |
| Variants.AgreeOnSuccess | internal/sqsconsumer/sqsconsumer.go:149-188 | for a message whose chain succeeds and that is not a keyless create, the newer consumer returns nil and the older one reaches the delete, and both make the same calls apart from the payload |
| Variants.AgreeWhenNothingFails | internal/message/consumer.go:130-176 | on a batch in which every chain succeeds and no create event lacks a key, both consumers handle and delete every message, with the same calls apart from the payload and the same delete outcomes |

## Left out

- The ticker, the `ctx.Done()` select and the initial receive in `Consume` are left out. Both revisions return from `Consume` when a receive fails, and that is left out too. One tick's batch is modelled as a function over a sequence of messages.
- The AWS SDK calls (`GetQueueUrl`, `ReceiveMessage`, `DeleteMessage`, `GetObject`) and `NewConsumer`/`init` are left out. A delete, a read and its body are outcome values. Queue-URL resolution is outside the per-message logic.
- `internal/storage/storage.go` is not part of this model beyond its outcome: a failed `GetObject` or an opened body stream. The wrapped error text "GetObject failed" is carried only as an opaque cause.
- Protobuf decoding, `doc.String()` and URL parsing are left out as implementations. They are total functions supplied by the caller. For that reason an encode/decode round trip of the document is not stated.
- `net/http` transport, timeouts as time, and the context are left out. The HTTP exchange is a transport-error or status outcome, and the timeout is only carried along.
- Logging through zap is left out. It has no effect on the decisions.
- Nil `Body`, `MessageId` or `ReceiptHandle` pointers in a received message are left out. Dereferencing them would panic. The queue always fills these fields in, so message fields are plain strings.
- The CLI, YAML configuration, and health endpoint (`cmd/`, `internal/config`, `internal/health`) are left out as startup and HTTP plumbing.
- Stream reads are modelled one chunk per `Read` call. The byte counts returned together with an error inside a single `Read` are not split further.

=== FILE: callback.dfy ===
/** The callback executor: one HTTP POST of a payload to a URI, judged
    successful only on status 200. The network is an outcome value. */
module Callback {
  import opened Wrappers
  import opened Octets

  /** The only status code that counts as a delivered callback. */
  const StatusOK := 200

  /** Executor configuration; `timeout` is a Go `time.Duration`. */
  datatype Config = Config(timeout: int)

  /** An executor is an HTTP client; the only setting the model keeps is
      the per-request timeout it was built with. */
  datatype Executor = Executor(timeout: int)

  function NewCallbackExecutor(cfg: Config): (x: Executor)
    ensures x.timeout == cfg.timeout
  {
    Executor(cfg.timeout)
  }

  datatype Request = Request(verb: string, uri: string, body: Bytes)

  /** A request put on the wire, and the client timeout it ran under. */
  datatype Sent = Sent(request: Request, timeout: int)

  /** What the client's `Do` produced: a transport error or a response. */
  datatype Transport = TransportError(cause: string) | Response(statusCode: int)

  datatype CallbackError =
    | RequestNotCreated(cause: string)
    | NotExecuted(cause: string)
    | NonOkStatus

  /** The outcome of one `Execute`: the request sent, if any, and the error
      returned, if any. */
  datatype Call = Call(sent: Option<Sent>, err: Option<CallbackError>)

  /** `Execute(ctx, uri, body)`. `newRequest(uri)` is the error building the
      request reports for `uri` (none when the URI is usable); `transport` is
      what sending it produced. */
  function Execute(
    x: Executor, uri: string, body: Bytes,
    newRequest: string -> Option<string>, transport: Transport): (r: Call)
    // a request goes out exactly when it could be built, and it is a POST
    // of the given body to the given URI under the executor's timeout
    ensures r.sent.Some? <==> newRequest(uri).None?
    ensures r.sent.Some? ==> r.sent.value == Sent(Request("POST", uri, body), x.timeout)
    // success is exactly: sent, no transport error, status 200
    ensures r.err.None? <==> newRequest(uri).None? && transport == Response(StatusOK)
    ensures newRequest(uri).Some? ==> r.err == Some(RequestNotCreated(newRequest(uri).value))
    ensures r.sent.Some? && transport.TransportError? ==> r.err == Some(NotExecuted(transport.cause))
    ensures r.sent.Some? && transport.Response? && transport.statusCode != StatusOK ==> r.err == Some(NonOkStatus)
  {
    match newRequest(uri)
    case Some(cause) => Call(None, Some(RequestNotCreated(cause)))
    case None =>
      var sent := Some(Sent(Request("POST", uri, body), x.timeout));
      match transport
      case TransportError(cause) => Call(sent, Some(NotExecuted(cause)))
      case Response(status) =>
        if status != StatusOK then Call(sent, Some(NonOkStatus)) else Call(sent, None)
  }

  /** The fixed text of the non-200 error, one literal in the source; it is
      written as two here only so that the verifier can look into its
      characters, which it does not do for a literal this long. */
  const NonOkStatusText := "callback execution failed" + " with non 200 status code"

  /** The text of the error `Execute` returns (`%v` of the cause appended
      where the source wraps one). */
  function ErrorText(e: CallbackError): string
  {
    match e
    case RequestNotCreated(cause) => "failed to create http request: " + cause
    case NotExecuted(cause) => "could not execute callback: " + cause
    case NonOkStatus => NonOkStatusText
  }

  predicate HasPrefix(s: string, p: string)
  {
    |p| <= |s| && s[..|p|] == p
  }

  /** A string whose `i`-th character differs from the prefix's does not
      start with that prefix. */
  lemma NotPrefixAt(s: string, p: string, i: nat)
    requires i < |p| && i < |s| && s[i] != p[i]
    ensures !HasPrefix(s, p)
  {
  }

  /** Each error text identifies its failure: a caller matching on the
      message text (as the executor's tests do) tells the three apart. */
  lemma ErrorTextsIdentifyFailure(e: CallbackError)
    ensures e.RequestNotCreated? <==> HasPrefix(ErrorText(e), "failed to create http request")
    ensures e.NotExecuted? <==> HasPrefix(ErrorText(e), "could not execute callback")
    ensures e.NonOkStatus? <==> ErrorText(e) == NonOkStatusText
  {
    var t := ErrorText(e);
    var create := "failed to create http request";
    var execute := "could not execute callback";
    var status := NonOkStatusText;
    assert create[0] == 'f' && execute[0] == 'c' && execute[1] == 'o';
    assert status[0] == 'c' && status[1] == 'a';
    match e
    case RequestNotCreated(cause) =>
      assert t[..|create|] == create;
      NotPrefixAt(t, execute, 0);
      assert t[0] != status[0];
    case NotExecuted(cause) =>
      assert t[..|execute|] == execute;
      NotPrefixAt(t, create, 0);
      assert t[1] != status[1];
    case NonOkStatus =>
      NotPrefixAt(t, create, 0);
      NotPrefixAt(t, execute, 1);
  }

  /** An executor built from a configuration sends every request under the
      configured timeout. */
  lemma SentUnderConfiguredTimeout(
    cfg: Config, uri: string, body: Bytes,
    newRequest: string -> Option<string>, transport: Transport)
    ensures var r := Execute(NewCallbackExecutor(cfg), uri, body, newRequest, transport);
            r.sent.Some? ==> r.sent.value.timeout == cfg.timeout
  {
  }
}

=== FILE: documents.dfy ===
/** The decoded ingest document and the callback target embedded in it. */
module Documents {
  import opened Wrappers

  /** The configuration key that names the callback target. */
  const CallbackUrlKey := "callback_url"

  datatype Topology = Topology(name: string, configuration: map<string, string>)

  /** An ingest document. `topology` is a message field, so it may be
      absent (a nil pointer) after decoding. */
  datatype Document = Document(
    version: int,
    uuid: string,
    routingKey: string,
    naturalId: string,
    source: string,
    documentDate: string,
    languageId: string,
    topology: Option<Topology>)

  /** `doc.Topology.GetConfiguration()`: the generated getter is nil-safe and
      yields a nil (empty) map when the topology is missing. */
  function Configuration(d: Document): (m: map<string, string>)
    ensures d.topology.None? ==> m == map[]
    ensures d.topology.Some? ==> m == d.topology.value.configuration
  {
    match d.topology
    case None => map[]
    case Some(t) => t.configuration
  }

  /** `configMap["callback_url"]` with its `ok` flag: present exactly when the
      document has a topology whose configuration holds the key, and then the
      configured value. */
  function CallbackUrl(d: Document): (r: Option<string>)
    ensures r.Some? <==> d.topology.Some? && CallbackUrlKey in d.topology.value.configuration
    ensures r.Some? ==> r.value == d.topology.value.configuration[CallbackUrlKey]
  {
    var config := Configuration(d);
    if CallbackUrlKey in config then Some(config[CallbackUrlKey]) else None
  }
}

=== FILE: environment.dfy ===
/** The outside world of one message, as outcomes. Per-message I/O (the
    object-store read, the HTTP exchange, the queue delete) is a `World`
    value; deterministic library behaviour (JSON and document decoding,
    the document's text rendering, request construction) is a `Codecs`
    function. */
module Environment {
  import opened Wrappers
  import opened Octets
  import opened Streams
  import opened Notifications
  import opened Documents
  import opened Callback

  /** The storage read: `GetObject` fails, or it opens a body stream. */
  datatype ReadOutcome = GetObjectFailed(cause: string) | Opened(body: Body)

  /** What the services answer while one message is handled: the store
      read, the callback's transport outcome, whether the queue accepts the
      delete. */
  datatype World = World(read: ReadOutcome, transport: Transport, deleteOk: bool)

  /** Deterministic decoders: `json.Unmarshal` into a notification,
      `proto.Unmarshal` into a document (None on any malformed input),
      `doc.String()`, and the error building a request reports for a URI. */
  datatype Codecs = Codecs(
    parseNotification: string -> ParseOutcome,
    decodeDocument: Bytes -> Option<Document>,
    renderDocument: Document -> Bytes,
    newRequest: string -> Option<string>)

  /** An observable call made while handling one message: a storage read of
      a key, or a callback execution with a target and a payload. */
  datatype Effect = Read(key: string) | Invoke(url: string, payload: Bytes)

  /** What one pass of a batch loop did with one message: the calls made
      for it, whether it was deleted from the queue (a `DeleteMessage` was
      issued) and whether that delete succeeded. */
  datatype Report = Report(
    receiptHandle: string,
    effects: seq<Effect>,
    deleteAttempted: bool,
    deleted: bool)
}

=== FILE: message_consumer.dfy ===
/** The older consumer, still the one the server command starts: JSON
    errors are ignored, every notification that is not a create event is
    deleted, a create event is fetched even without a key, the callback's
    outcome is ignored, and a fetch or decode failure abandons the rest of
    the batch. */
module MessageConsumer {
  import opened Streams
  import opened Notifications
  import opened Documents
  import opened Callback
  import opened Environment
  import opened Pipeline

  /** How the loop body ends for one message: it reaches the delete, it
      returns from `processMessages`, or indexing an empty `Records` panics. */
  datatype Verdict = Delete | Abort | Panic

  datatype Handled = Handled(effects: seq<Effect>, verdict: Verdict)

  /** The notification the loop body works on: whatever `json.Unmarshal`
      left in it, error or not. */
  function Received(m: Message, c: Codecs): Notification
  {
    c.parseNotification(m.body).notification
  }

  /** A create event in the first record, key or no key. */
  predicate IsCreate(n: Notification)
  {
    |n.records| > 0 && n.records[0].eventName == ObjectCreatedPut
  }

  /** The loop body of `processMessages` for one message, up to (but not
      including) the delete. */
  function HandleMessage(m: Message, w: World, c: Codecs, x: Executor): (r: Handled)
    ensures r.verdict == Panic <==> |Received(m, c).records| == 0
    // the store is read for every create event, at its key, even an empty one
    ensures r.effects != [] <==> IsCreate(Received(m, c))
    ensures r.effects != [] ==> r.effects[0] == Read(Received(m, c).records[0].key)
    ensures |r.effects| <= 2
    // the callback gets the document's rendering, not the stored bytes
    ensures |r.effects| == 2 <==> IsCreate(Received(m, c)) && CallbackTarget(w, c).Some?
    ensures |r.effects| == 2 ==>
              r.effects[1] == Invoke(CallbackTarget(w, c).value,
                                     c.renderDocument(StoredDocument(w, c).value))
    // only a failed read or decode abandons the batch; the callback's outcome never matters
    ensures r.verdict == Abort <==> IsCreate(Received(m, c)) && StoredDocument(w, c).None?
  {
    var n := Received(m, c);
    if |n.records| == 0 then Handled([], Panic)
    else if n.records[0].eventName != ObjectCreatedPut then Handled([], Delete)
    else
      var key := n.records[0].key;
      match w.read
      case GetObjectFailed(_) => Handled([Read(key)], Abort)
      case Opened(body) =>
        var drained := ReadAll(body);
        if drained.err.Some? then Handled([Read(key)], Abort)
        else
          match c.decodeDocument(drained.data)
          case None => Handled([Read(key)], Abort)
          case Some(doc) =>
            match CallbackUrl(doc)
            case None => Handled([Read(key)], Delete)
            case Some(url) =>
              // `Execute` runs, but what it returns is discarded
              var _ := Execute(x, url, c.renderDocument(doc), c.newRequest, w.transport);
              Handled([Read(key), Invoke(url, c.renderDocument(doc))], Delete)
  }

  /** How `processMessages` ended: it went through the whole slice, it
      returned early after a failed read or decode, or it panicked. */
  datatype End = Completed | Aborted | Panicked

  /** The messages handled, in order (an aborting message is the last one,
      undeleted; a panicking one made no calls and has no report). */
  datatype Run = Run(reports: seq<Report>, end: End)

  /** `rep` records what the loop did with a message whose loop body ended
      with `h`: its calls, a delete unless the body aborted (or panicked),
      and whether the queue accepted that delete. */
  predicate Reflects(rep: Report, receiptHandle: string, h: Handled, w: World)
  {
    && rep.receiptHandle == receiptHandle
    && rep.effects == h.effects
    && (rep.deleteAttempted <==> h.verdict == Delete)
    && (rep.deleted <==> rep.deleteAttempted && w.deleteOk)
  }

  /** The control flow of the `for` loop in `processMessages`, given what the
      loop body does with each message: go on after a delete, return after
      an abort, stop dead on a panic. Outcomes past the point where the loop
      stops are never acted on. */
  function Loop(receiptHandles: seq<string>, outcomes: seq<Handled>, worlds: seq<World>): (r: Run)
    requires |outcomes| == |receiptHandles| == |worlds|
    ensures |r.reports| <= |outcomes|
    ensures r.end.Completed? ==> |r.reports| == |outcomes|
    ensures r.end.Panicked? ==> |r.reports| < |outcomes| && outcomes[|r.reports|].verdict == Panic
    ensures r.end.Aborted? ==> |r.reports| > 0 && outcomes[|r.reports| - 1].verdict == Abort
    ensures forall i :: 0 <= i < |r.reports| ==>
              Reflects(r.reports[i], receiptHandles[i], outcomes[i], worlds[i])
    ensures forall i :: 0 <= i < |r.reports| ==>
              outcomes[i].verdict == Delete || (r.end.Aborted? && i == |r.reports| - 1)
    decreases |outcomes|
  {
    if |outcomes| == 0 then Run([], Completed)
    else
      var h := outcomes[0];
      match h.verdict
      case Panic => Run([], Panicked)
      case Abort => Run([Report(receiptHandles[0], h.effects, false, false)], Aborted)
      case Delete =>
        // `deleteMessage`'s error is not looked at
        var rest := Loop(receiptHandles[1..], outcomes[1..], worlds[1..]);
        Run([Report(receiptHandles[0], h.effects, true, worlds[0].deleteOk)] + rest.reports, rest.end)
  }

  /** `processMessages` over one received batch: `worlds[i]` is what the
      services answer for `msgs[i]`. */
  function ProcessMessages(msgs: seq<Message>, worlds: seq<World>, c: Codecs, x: Executor): (r: Run)
    requires |worlds| == |msgs|
    ensures |r.reports| <= |msgs|
    ensures r.end.Completed? ==> |r.reports| == |msgs|
    ensures r.end.Panicked? ==>
              |r.reports| < |msgs| &&
              HandleMessage(msgs[|r.reports|], worlds[|r.reports|], c, x).verdict == Panic
    // an abort ends the batch right after the failing message
    ensures r.end.Aborted? ==>
              |r.reports| > 0 &&
              HandleMessage(msgs[|r.reports| - 1], worlds[|r.reports| - 1], c, x).verdict == Abort
    // in slice order, each with the calls its loop body made
    ensures forall i :: 0 <= i < |r.reports| ==>
              r.reports[i].receiptHandle == msgs[i].receiptHandle &&
              r.reports[i].effects == HandleMessage(msgs[i], worlds[i], c, x).effects
    // every handled message is deleted except an aborting one
    ensures forall i :: 0 <= i < |r.reports| ==>
              (r.reports[i].deleteAttempted <==> HandleMessage(msgs[i], worlds[i], c, x).verdict == Delete)
    ensures forall i :: 0 <= i < |r.reports| && (i < |r.reports| - 1 || !r.end.Aborted?) ==>
              r.reports[i].deleteAttempted
    ensures forall i :: 0 <= i < |r.reports| ==>
              (r.reports[i].deleted <==> r.reports[i].deleteAttempted && worlds[i].deleteOk)
  {
    var handles := seq(|msgs|, i requires 0 <= i < |msgs| => msgs[i].receiptHandle);
    var outcomes := seq(|msgs|, i requires 0 <= i < |msgs| => HandleMessage(msgs[i], worlds[i], c, x));
    Loop(handles, outcomes, worlds)
  }
}

=== FILE: notifications.dfy ===
/** The queue message and the storage-event notification carried in its
    body. Both consumer packages declare the same notification record types;
    they are defined once here. */
module Notifications {

  /** The only event name that leads to a fetch. */
  const ObjectCreatedPut := "ObjectCreated:Put"

  /** One entry of `Records`: its `eventName` and its `s3.object.key`
      (the intermediate `s3` and `object` objects carry nothing else). */
  datatype Record = Record(eventName: string, key: string)

  /** A storage-event notification: the `Records` array. */
  datatype Notification = Notification(records: seq<Record>)

  /** The zero value `sqsNotification{}`: no records. */
  const ZeroNotification := Notification([])

  /** What `json.Unmarshal(body, &notification)` leaves behind. On failure
      the target still holds whatever was decoded before the error (the zero
      value for a syntax error, a partly filled one for a type mismatch). */
  datatype ParseOutcome =
    | Parsed(notification: Notification)
    | ParseFailed(notification: Notification)

  /** A received queue message: id, raw body and the receipt handle that
      deleting it requires. */
  datatype Message = Message(messageId: string, body: string, receiptHandle: string)
}

=== FILE: pipeline.dfy ===
/** The intended per-message behaviour, stated independently of either
    consumer: a message is worth acknowledging exactly when its whole
    parse, fetch, decode, dispatch chain succeeded, where a notification
    that does not announce a new object (or has no key) needs nothing done. */
module Pipeline {
  import opened Wrappers
  import opened Octets
  import opened Streams
  import opened Notifications
  import opened Documents
  import opened Callback
  import opened Environment

  /** An object-creation event with a non-empty key. */
  predicate AnnouncesNewObject(rec: Record)
  {
    rec.eventName == ObjectCreatedPut && rec.key != ""
  }

  /** The key that should be fetched for `m`, if any: the first record of a
      well-formed notification that announces a new object. */
  function ObjectToFetch(m: Message, c: Codecs): (k: Option<string>)
    ensures k.Some? ==> k.value != ""
    ensures k.Some? ==> c.parseNotification(m.body).Parsed?
  {
    match c.parseNotification(m.body)
    case ParseFailed(_) => None
    case Parsed(n) =>
      if |n.records| > 0 && AnnouncesNewObject(n.records[0]) then Some(n.records[0].key) else None
  }

  /** The complete stored object, if the read and the stream both succeed. */
  function StoredObject(w: World): Option<Bytes>
  {
    match w.read
    case GetObjectFailed(_) => None
    case Opened(body) => if body.failure.None? then Some(Concat(body.chunks)) else None
  }

  /** The document the stored object decodes to, if both succeed. */
  function StoredDocument(w: World, c: Codecs): Option<Document>
  {
    match StoredObject(w)
    case None => None
    case Some(bytes) => c.decodeDocument(bytes)
  }

  /** The callback target named by the stored document, if any. */
  function CallbackTarget(w: World, c: Codecs): Option<string>
  {
    match StoredDocument(w, c)
    case None => None
    case Some(doc) => CallbackUrl(doc)
  }

  /** A callback to `url` is delivered: the request can be built and the
      endpoint answers 200. */
  predicate Delivered(url: string, w: World, c: Codecs)
  {
    c.newRequest(url).None? && w.transport == Response(StatusOK)
  }

  /** The design invariant's right-hand side: the notification is well
      formed, and if it names an object then that object is read and decoded
      and, when it names a callback target, the callback is delivered. */
  predicate ChainSucceeded(m: Message, w: World, c: Codecs)
  {
    match c.parseNotification(m.body)
    case ParseFailed(_) => false
    case Parsed(n) =>
      && |n.records| > 0
      && (ObjectToFetch(m, c).Some? ==>
            && StoredDocument(w, c).Some?
            && (CallbackTarget(w, c).Some? ==> Delivered(CallbackTarget(w, c).value, w, c)))
  }
}

=== FILE: sqsconsumer.dfy ===
/** The newer consumer: `ProcessMessage` reports every failure other than
    an empty `Records` (which panics) as an error, and the batch loop deletes
    a message only when processing returned no error. The loop moves on after
    an error, and a panic ends the batch. */
module SqsConsumer {
  import opened Streams
  import opened Notifications
  import opened Documents
  import opened Callback
  import opened Environment
  import opened Pipeline

  datatype ProcessError =
    | NotificationInvalid
    | ReadFailed(cause: string)
    | BodyReadFailed(cause: string)
    | DecodeFailed
    | CallbackFailed(callbackError: CallbackError)

  /** `Done` is a nil error; `Panicked` is the runtime panic of indexing an
      empty `Records` slice, which no caller recovers from. */
  datatype Status = Done | Failed(error: ProcessError) | Panicked

  datatype Processed = Processed(effects: seq<Effect>, status: Status)

  /** The body of the `if` that guards the fetch: read the object through a
      tee into a buffer, decode the bytes read, and post the buffer to the
      document's callback target if it names one. */
  function FetchAndDispatch(key: string, w: World, c: Codecs, x: Executor): (r: Processed)
    ensures 1 <= |r.effects| <= 2 && r.effects[0] == Read(key)
    // a dispatch happens exactly when the document decodes and names a target
    ensures |r.effects| == 2 <==> CallbackTarget(w, c).Some?
    // ... and it posts the stored bytes, byte for byte, to that target
    ensures |r.effects| == 2 ==>
              r.effects[1] == Invoke(CallbackTarget(w, c).value, StoredObject(w).value)
    ensures r.status.Failed? || r.status.Done?
    ensures r.status.Done? <==>
              StoredDocument(w, c).Some? &&
              (CallbackTarget(w, c).Some? ==> Delivered(CallbackTarget(w, c).value, w, c))
    ensures r.status.Failed? && r.status.error.ReadFailed? <==> w.read.GetObjectFailed?
    // a failed read or stream is returned with its own error
    ensures w.read.GetObjectFailed? ==> r.status == Failed(ReadFailed(w.read.cause))
    ensures w.read.Opened? && w.read.body.failure.Some? ==>
              r.status == Failed(BodyReadFailed(w.read.body.failure.value))
    ensures r.status.Failed? && r.status.error.BodyReadFailed? <==>
              w.read.Opened? && w.read.body.failure.Some?
    ensures r.status == Failed(DecodeFailed) <==>
              StoredObject(w).Some? && StoredDocument(w, c).None?
    // a failed callback's error is the error returned
    ensures |r.effects| == 2 ==>
              var call := Execute(x, r.effects[1].url, r.effects[1].payload, c.newRequest, w.transport);
              (call.err.None? ==> r.status == Done) &&
              (call.err.Some? ==> r.status == Failed(CallbackFailed(call.err.value)))
  {
    match w.read
    case GetObjectFailed(cause) => Processed([Read(key)], Failed(ReadFailed(cause)))
    case Opened(body) =>
      var teed := TeeReadAll(body);
      if teed.read.err.Some? then
        Processed([Read(key)], Failed(BodyReadFailed(teed.read.err.value)))
      else
        match c.decodeDocument(teed.read.data)
        case None => Processed([Read(key)], Failed(DecodeFailed))
        case Some(doc) =>
          match CallbackUrl(doc)
          case None => Processed([Read(key)], Done)
          case Some(url) =>
            var call := Execute(x, url, teed.buffer, c.newRequest, w.transport);
            var effects := [Read(key), Invoke(url, teed.buffer)];
            if call.err.Some? then Processed(effects, Failed(CallbackFailed(call.err.value)))
            else Processed(effects, Done)
  }

  /** `ProcessMessage`: parse the body, filter on the first record, then
      fetch, decode and dispatch. */
  function ProcessMessage(m: Message, w: World, c: Codecs, x: Executor): (r: Processed)
    // a body that is not a notification is an error, and nothing is fetched or sent
    ensures c.parseNotification(m.body).ParseFailed? ==>
              r == Processed([], Failed(NotificationInvalid))
    ensures r.status.Panicked? <==>
              c.parseNotification(m.body).Parsed? && |c.parseNotification(m.body).notification.records| == 0
    // the store is read exactly for a new-object event with a key, and it is read at that key
    ensures r.effects != [] <==> ObjectToFetch(m, c).Some?
    ensures r.effects != [] ==> r.effects[0] == Read(ObjectToFetch(m, c).value)
    ensures |r.effects| <= 2
    ensures |r.effects| == 2 <==> ObjectToFetch(m, c).Some? && CallbackTarget(w, c).Some?
    ensures |r.effects| == 2 ==>
              r.effects[1] == Invoke(CallbackTarget(w, c).value, StoredObject(w).value)
    // once the fetch has started, each failure is returned as its own error
    ensures ObjectToFetch(m, c).Some? && w.read.GetObjectFailed? ==>
              r.status == Failed(ReadFailed(w.read.cause))
    ensures ObjectToFetch(m, c).Some? && w.read.Opened? && w.read.body.failure.Some? ==>
              r.status == Failed(BodyReadFailed(w.read.body.failure.value))
    ensures ObjectToFetch(m, c).Some? && StoredObject(w).Some? && StoredDocument(w, c).None? ==>
              r.status == Failed(DecodeFailed)
    // ... and a failed callback's error is the error returned
    ensures |r.effects| == 2 ==>
              var call := Execute(x, r.effects[1].url, r.effects[1].payload, c.newRequest, w.transport);
              (call.err.Some? ==> r.status == Failed(CallbackFailed(call.err.value)))
    // no error exactly when the whole chain succeeded
    ensures r.status == Done <==> ChainSucceeded(m, w, c)
  {
    match c.parseNotification(m.body)
    case ParseFailed(_) => Processed([], Failed(NotificationInvalid))
    case Parsed(n) =>
      if |n.records| == 0 then Processed([], Panicked)
      else if n.records[0].eventName == ObjectCreatedPut && n.records[0].key != "" then
        FetchAndDispatch(n.records[0].key, w, c, x)
      else Processed([], Done)
  }

  /** One pass of the loop in `Consume` for one message that did not panic:
      delete it (with `deleteMessage`) only if processing returned nil. */
  function Settle(m: Message, p: Processed, w: World): (r: Report)
    requires !p.status.Panicked?
    ensures r.receiptHandle == m.receiptHandle && r.effects == p.effects
    ensures r.deleteAttempted <==> p.status == Done
    ensures r.deleted <==> p.status == Done && w.deleteOk
  {
    if p.status == Done then Report(m.receiptHandle, p.effects, true, w.deleteOk)
    else Report(m.receiptHandle, p.effects, false, false)
  }

  /** The messages of one received batch, handled in order; `panicked` when a
      message's processing panicked, which ends the batch (and the process)
      at that message. */
  datatype Tick = Tick(reports: seq<Report>, panicked: bool)

  /** One tick's batch: `worlds[i]` is what the services answer for
      `msgs[i]`. */
  function ConsumeBatch(msgs: seq<Message>, worlds: seq<World>, c: Codecs, x: Executor): (r: Tick)
    requires |worlds| == |msgs|
    ensures |r.reports| <= |msgs|
    // errors never stop the batch: only a panic leaves messages unhandled
    ensures !r.panicked <==> |r.reports| == |msgs|
    // ... and a panic ends it at the first panicking message: none before it panicked
    ensures forall i :: 0 <= i < |r.reports| ==> !ProcessMessage(msgs[i], worlds[i], c, x).status.Panicked?
    ensures r.panicked ==>
              ProcessMessage(msgs[|r.reports|], worlds[|r.reports|], c, x).status.Panicked?
    // in order, each with exactly the calls its processing made
    ensures forall i :: 0 <= i < |r.reports| ==>
              r.reports[i].receiptHandle == msgs[i].receiptHandle &&
              r.reports[i].effects == ProcessMessage(msgs[i], worlds[i], c, x).effects
    // deleted exactly when processing returned nil, i.e. the chain succeeded
    ensures forall i :: 0 <= i < |r.reports| ==>
              (r.reports[i].deleteAttempted <==> ProcessMessage(msgs[i], worlds[i], c, x).status == Done)
    ensures forall i :: 0 <= i < |r.reports| ==>
              (r.reports[i].deleteAttempted <==> ChainSucceeded(msgs[i], worlds[i], c))
    ensures forall i :: 0 <= i < |r.reports| ==>
              (r.reports[i].deleted <==> r.reports[i].deleteAttempted && worlds[i].deleteOk)
    decreases |msgs|
  {
    if |msgs| == 0 then Tick([], false)
    else
      var p := ProcessMessage(msgs[0], worlds[0], c, x);
      if p.status.Panicked? then Tick([], true)
      else
        var rest := ConsumeBatch(msgs[1..], worlds[1..], c, x);
        Tick([Settle(msgs[0], p, worlds[0])] + rest.reports, rest.panicked)
  }
}

/** Consequences of the newer consumer's contracts. */
module SqsConsumerProperties {
  import opened Wrappers
  import opened Octets
  import opened Streams
  import opened Notifications
  import opened Documents
  import opened Callback
  import opened Environment
  import opened SqsConsumer

  /** Every storage read is for a non-empty key. */
  lemma NeverFetchesEmptyKey(m: Message, w: World, c: Codecs, x: Executor)
    ensures forall e :: e in ProcessMessage(m, w, c, x).effects && e.Read? ==> e.key != ""
  {
  }

  /** The consumer test's case: a put notification for `test-key`, a stored
      document whose configuration names a callback that answers 200. The
      one call to the callback carries the stored bytes, processing returns
      nil, and the batch loop issues the delete, which succeeds exactly when
      the queue accepts it. */
  lemma DeliveredCallbackIsAcknowledged(
    m: Message, w: World, c: Codecs, x: Executor,
    chunks: seq<Bytes>, doc: Document, url: string)
    requires c.parseNotification(m.body) == Parsed(Notification([Record(ObjectCreatedPut, "test-key")]))
    requires w.read == Opened(Body(chunks, None))
    requires c.decodeDocument(Concat(chunks)) == Some(doc)
    requires CallbackUrl(doc) == Some(url)
    requires c.newRequest(url).None?
    requires w.transport == Response(StatusOK)
    ensures ProcessMessage(m, w, c, x) ==
              Processed([Read("test-key"), Invoke(url, Concat(chunks))], Done)
    ensures ConsumeBatch([m], [w], c, x).reports ==
              [Report(m.receiptHandle, [Read("test-key"), Invoke(url, Concat(chunks))], true, w.deleteOk)]
  {
  }
}

=== FILE: streams.dfy ===
/** The part of Go's `io` package the consumers rely on: draining a body
    stream with `io.ReadAll`, and copying it into a `bytes.Buffer` on the
    way through an `io.TeeReader`. A stream is seen at chunk granularity:
    the chunks that successive `Read` calls deliver, then either EOF or an
    error. */
module Streams {
  import opened Wrappers
  import opened Octets

  /** What a reader yields: `chunks` in order, then EOF (`failure == None`)
      or the error `failure`. */
  datatype Body = Body(chunks: seq<Bytes>, failure: Option<string>)

  /** The bytes of `chunks`, in delivery order. */
  function Concat(chunks: seq<Bytes>): Bytes
    decreases |chunks|
  {
    if chunks == [] then [] else chunks[0] + Concat(chunks[1..])
  }

  /** The result of `io.ReadAll`: the bytes read, and the error that ended
      the read (none at EOF). */
  datatype Drained = Drained(data: Bytes, err: Option<string>)

  /** Appends every chunk to `acc`, one `Read` call at a time. */
  function Drain(chunks: seq<Bytes>, acc: Bytes): (r: Bytes)
    ensures r == acc + Concat(chunks)
    decreases |chunks|
  {
    if chunks == [] then acc else Drain(chunks[1..], acc + chunks[0])
  }

  /** `io.ReadAll(body)`: everything the stream delivered, in order, and the
      stream's error if it did not end at EOF. */
  function ReadAll(b: Body): (r: Drained)
    ensures r.data == Concat(b.chunks)
    ensures r.err == b.failure
  {
    Drained(Drain(b.chunks, []), b.failure)
  }

  /** `io.ReadAll(io.TeeReader(body, &buf))`: the read result and what the
      tee wrote into `buf`. */
  datatype Teed = Teed(read: Drained, buffer: Bytes)

  /** One `Read` at a time: the tee hands each chunk to the reader and
      writes the same chunk into the buffer. */
  function TeeDrain(chunks: seq<Bytes>, data: Bytes, buf: Bytes): (r: (Bytes, Bytes))
    ensures r.0 == data + Concat(chunks)
    ensures r.1 == buf + Concat(chunks)
    decreases |chunks|
  {
    if chunks == [] then (data, buf)
    else TeeDrain(chunks[1..], data + chunks[0], buf + chunks[0])
  }

  /** Reading through the tee gives exactly what a plain read gives, and the
      buffer ends up holding exactly the bytes that were read. */
  function TeeReadAll(b: Body): (r: Teed)
    ensures r.read == ReadAll(b)
    ensures r.buffer == r.read.data
  {
    var (data, buf) := TeeDrain(b.chunks, [], []);
    Teed(Drained(data, b.failure), buf)
  }
}

=== FILE: variants.dfy ===
/** The main places where the two consumers part ways, message by message
    and batch by batch, and where they agree. */
module Variants {
  import opened Notifications
  import opened Callback
  import opened Environment
  import opened Pipeline
  import Sqs = SqsConsumer
  import Msg = MessageConsumer

  /** The same calls in the same order, payloads aside. */
  predicate SameCallsUpToPayload(a: seq<Effect>, b: seq<Effect>)
  {
    && |a| == |b|
    && forall i :: 0 <= i < |a| ==>
         (a[i].Read? && b[i] == a[i]) || (a[i].Invoke? && b[i].Invoke? && b[i].url == a[i].url)
  }

  /** A create event whose key is empty. */
  predicate KeylessCreate(m: Message, c: Codecs)
  {
    Msg.IsCreate(Msg.Received(m, c)) && Msg.Received(m, c).records[0].key == ""
  }

  /** A well-formed notification that is not a create event: neither
      consumer touches the store or the callback, and both delete it. */
  lemma OtherEventsAreDeletedByBoth(m: Message, w: World, c: Codecs, x: Executor)
    requires c.parseNotification(m.body).Parsed?
    requires |c.parseNotification(m.body).notification.records| > 0
    requires c.parseNotification(m.body).notification.records[0].eventName != ObjectCreatedPut
    ensures Sqs.ProcessMessage(m, w, c, x) == Sqs.Processed([], Sqs.Done)
    ensures Msg.HandleMessage(m, w, c, x) == Msg.Handled([], Msg.Delete)
  {
  }

  /** A create event without a key: the newer consumer does nothing and
      deletes the message; the older one reads the store at the empty key,
      and deletes it only if that read and the decode succeed. */
  lemma KeylessCreateIsFetchedOnlyByOlder(m: Message, w: World, c: Codecs, x: Executor)
    requires c.parseNotification(m.body).Parsed?
    requires KeylessCreate(m, c)
    ensures Sqs.ProcessMessage(m, w, c, x) == Sqs.Processed([], Sqs.Done)
    ensures Msg.HandleMessage(m, w, c, x).effects[0] == Read("")
    ensures Msg.HandleMessage(m, w, c, x).verdict == Msg.Delete <==> StoredDocument(w, c).Some?
  {
  }

  /** A body that does not parse: the newer consumer returns an error and
      makes no call; the older one carries on with whatever the decoder left
      behind. With nothing decoded that is an empty `Records`, and it
      panics; a partly decoded create event is still fetched, and a partly
      decoded event of another kind is deleted without a call. */
  lemma ParseErrorsHandledDifferently(m: Message, w: World, c: Codecs, x: Executor)
    requires c.parseNotification(m.body).ParseFailed?
    ensures Sqs.ProcessMessage(m, w, c, x) == Sqs.Processed([], Sqs.Failed(Sqs.NotificationInvalid))
    ensures c.parseNotification(m.body).notification == ZeroNotification ==>
              Msg.HandleMessage(m, w, c, x).verdict == Msg.Panic
    ensures Msg.IsCreate(c.parseNotification(m.body).notification) ==>
              Msg.HandleMessage(m, w, c, x).effects != []
    ensures |c.parseNotification(m.body).notification.records| > 0 &&
            !Msg.IsCreate(c.parseNotification(m.body).notification) ==>
              Msg.HandleMessage(m, w, c, x) == Msg.Handled([], Msg.Delete)
  {
  }

  /** When the stored document names a callback target, both consumers post
      to it, the newer with the stored bytes and the older with the
      document's rendering; the newer one acknowledges only a delivered
      callback, the older one always does, so for it acknowledgement no
      longer tracks the chain's success. */
  lemma CallbackOutcomeMattersOnlyToNewer(m: Message, w: World, c: Codecs, x: Executor)
    requires ObjectToFetch(m, c).Some?
    requires CallbackTarget(w, c).Some?
    ensures var s := Sqs.ProcessMessage(m, w, c, x);
            var o := Msg.HandleMessage(m, w, c, x);
            && |s.effects| == 2 && |o.effects| == 2
            && s.effects[1].url == o.effects[1].url == CallbackTarget(w, c).value
            && s.effects[1].payload == StoredObject(w).value
            && o.effects[1].payload == c.renderDocument(StoredDocument(w, c).value)
            && (s.status == Sqs.Done <==> Delivered(CallbackTarget(w, c).value, w, c))
            && o.verdict == Msg.Delete
            && (ChainSucceeded(m, w, c) <==> Delivered(CallbackTarget(w, c).value, w, c))
  {
  }

  /** When the fetch of a create event's object fails for message `k` (the
      `GetObject` call, the body stream or the decode) and every earlier
      message reached the delete, the older consumer gives up the batch
      right there: message `k` is not deleted and the rest are never looked
      at. */
  lemma FetchFailureEndsTheOlderBatch(
    msgs: seq<Message>, worlds: seq<World>, c: Codecs, x: Executor, k: nat)
    requires |worlds| == |msgs| && k < |msgs|
    requires forall i :: 0 <= i < k ==> Msg.HandleMessage(msgs[i], worlds[i], c, x).verdict == Msg.Delete
    requires Msg.IsCreate(Msg.Received(msgs[k], c)) && StoredDocument(worlds[k], c).None?
    ensures var o := Msg.ProcessMessages(msgs, worlds, c, x);
            o.end == Msg.Aborted && |o.reports| == k + 1 && !o.reports[k].deleteAttempted
  {
  }

  /** The newer consumer, by contrast, handles every message of a batch in
      which no well-formed notification has an empty `Records`, whatever
      fails along the way, unparsable bodies included. */
  lemma NewerHandlesWholeBatch(msgs: seq<Message>, worlds: seq<World>, c: Codecs, x: Executor)
    requires |worlds| == |msgs|
    requires forall i :: 0 <= i < |msgs| ==>
               !(c.parseNotification(msgs[i].body).Parsed? &&
                 |c.parseNotification(msgs[i].body).notification.records| == 0)
    ensures !Sqs.ConsumeBatch(msgs, worlds, c, x).panicked
    ensures |Sqs.ConsumeBatch(msgs, worlds, c, x).reports| == |msgs|
  {
  }

  /** A batch in which every message's chain succeeds and no create event
      lacks a key: both consumers handle every message, make the same calls
      (payloads aside) and delete every message. */
  lemma AgreeWhenNothingFails(msgs: seq<Message>, worlds: seq<World>, c: Codecs, x: Executor)
    requires |worlds| == |msgs|
    requires forall i :: 0 <= i < |msgs| ==>
               ChainSucceeded(msgs[i], worlds[i], c) && !KeylessCreate(msgs[i], c)
    ensures var s := Sqs.ConsumeBatch(msgs, worlds, c, x);
            var o := Msg.ProcessMessages(msgs, worlds, c, x);
            && |s.reports| == |o.reports| == |msgs|
            && o.end == Msg.Completed
            && forall i :: 0 <= i < |msgs| ==>
                 && s.reports[i].deleteAttempted && o.reports[i].deleteAttempted
                 && s.reports[i].deleted == o.reports[i].deleted
                 && SameCallsUpToPayload(s.reports[i].effects, o.reports[i].effects)
  {
    var s := Sqs.ConsumeBatch(msgs, worlds, c, x);
    var o := Msg.ProcessMessages(msgs, worlds, c, x);
    forall i | 0 <= i < |msgs|
      ensures Sqs.ProcessMessage(msgs[i], worlds[i], c, x).status == Sqs.Done
      ensures Msg.HandleMessage(msgs[i], worlds[i], c, x).verdict == Msg.Delete
      ensures SameCallsUpToPayload(Sqs.ProcessMessage(msgs[i], worlds[i], c, x).effects,
                                   Msg.HandleMessage(msgs[i], worlds[i], c, x).effects)
    {
      AgreeOnSuccess(msgs[i], worlds[i], c, x);
    }
    assert !s.panicked;
    assert !o.end.Panicked? && !o.end.Aborted?;
    forall i | 0 <= i < |msgs|
      ensures s.reports[i].deleteAttempted && o.reports[i].deleteAttempted
      ensures s.reports[i].deleted == o.reports[i].deleted
      ensures SameCallsUpToPayload(s.reports[i].effects, o.reports[i].effects)
    {
    }
  }

  /** One message whose chain succeeds and that is not a keyless create. */
  lemma AgreeOnSuccess(m: Message, w: World, c: Codecs, x: Executor)
    requires ChainSucceeded(m, w, c) && !KeylessCreate(m, c)
    ensures Sqs.ProcessMessage(m, w, c, x).status == Sqs.Done
    ensures Msg.HandleMessage(m, w, c, x).verdict == Msg.Delete
    ensures SameCallsUpToPayload(Sqs.ProcessMessage(m, w, c, x).effects, Msg.HandleMessage(m, w, c, x).effects)
  {
  }
}

=== FILE: wrappers.dfy ===
/** Small shared vocabulary: optional values and raw bytes. */
module Wrappers {

  /** A value that may be absent, as a Go nil pointer, a missing map key
      or an error-free result. */
  datatype Option<+T> = None | Some(value: T)
}

module Octets {

  /** One byte; Go's `byte` / `uint8`. */
  newtype uint8 = x: int | 0 <= x < 256

  /** A Go `[]byte` or the bytes of a Go `string`. */
  type Bytes = seq<uint8>
}
